=== FILE: README.md ===
# CSV record writer of the save route

This project models the one piece of self-contained logic in the
behaviour-profiling web application: the route `POST /api/save`
(`app/api/save/route.js`) that turns a submitted JSON object into a line of
comma-separated values and adds it to the data file `data.2.txt`.

- `escapeCsvField` encloses a value in double quotes and doubles every quote
  inside it. This is the quoting of RFC 4180, section 2, rules 5 to 7.
- The data line is the escaped values joined by `,` and ended by `\n`.
- The new file content is the header line (the keys, joined by `,`, not
  escaped) followed by the data line when the file does not exist yet.
  Otherwise it is the stored text followed by the data line.

The model is functional. Strings are `seq<char>`. The submitted object is a
sequence of (key, value) pairs in enumeration order, so `Object.keys` and
`Object.values` line up index by index. The stored file is an
`Option<string>` parameter: `None` when the blob listing does not contain the
file, `Some(text)` with the fetched text otherwise.

Modules:

- `Wrappers` holds the `Option` type.
- `Rfc4180` is an independent reference reader for the format of RFC 4180
  section 2. It reads escaped fields (quoted, with `""` standing for `"`) and
  non-escaped fields, and it reads whole files as lists of records. It is the
  reference reader the writer is proved against. The data file ends each line
  with a single line feed, so records here end with LF where rule 1 of
  section 2 writes CRLF. As rule 2 allows, the last record of a file may
  lack its line break. A non-escaped field may hold any character except
  comma, quote and line feed, which is wider than the printable-ASCII
  TEXTDATA of the RFC grammar. An escaped field may likewise hold any
  character between its quotes, where the grammar allows only TEXTDATA,
  comma, CR, LF and doubled quotes.
- `Escaping` models `escapeCsvField` and its inverse, the unescaping that
  rule 7 prescribes.
- `SaveRoute` models the data line, the header line and the choice of new
  content, and proves what a reader of the file gets back.

An object with no properties gives the data line `"\n"`. A reader of RFC 4180
sees one empty field on that line, not zero fields. `ReadBack` states this
case, and the lemmas about reading lines back use it.

The route appends the data line to the stored text as it is. When that text
ends with a line feed (or is empty), the reader sees the old records plus
one new one. Every content the route writes ends with a line feed, so a file
that only this route has written always meets this condition. When the last
line of the stored text lacks its line feed, the data line is glued onto that
line, and what a reader then sees depends on that line:

- `UnterminatedStoredGlues`: for the stored text `x`, the quote that opens
  the first value lands inside a non-escaped field, and the file no longer
  reads.
- `UnterminatedStoredMerges`: for a stored text `v,` with `v` plain, the file
  still reads as one record, `v` followed by the submitted values, and no
  record is added. For `{}` or a single empty value that record is the stored
  one, so the save is invisible to a reader.

## Model

| member | source | states |
|---|---|---|
| Escaping.EscapeBody | app/api/save/route.js:7 | the global replace of `"` by `""` lengthens the value by exactly its number of quotes |
| Escaping.Escape | app/api/save/route.js:6-8 | the escaped field starts and ends with `"`, its length is the value's length plus its quote count plus 2, and between the outer quotes quotes occur only in adjacent pairs |
| Escaping.EscapeBodyConcat | app/api/save/route.js:7 | the replace works character by character: escaping a concatenation is the concatenation of the escapings |
| Escaping.EscapeBodyKeepsOthers | app/api/save/route.js:7 | every character other than `"` is copied unchanged and in order, and the escaped text holds exactly twice as many quotes |
| Escaping.EscapeBodyPaired | app/api/save/route.js:7 | inside the outer quotes every quote belongs to an adjacent pair |
| Escaping.CollapseEscapeBody | app/api/save/route.js:7 | reading each `""` back as `"` gives the original value |
| Escaping.EscapeBodyCollapse | app/api/save/route.js:7 | every text whose quotes come in pairs is the escaping of exactly one value |
| Escaping.EscapeRoundTrip | app/api/save/route.js:6-8 | stripping the outer quotes and collapsing `""` returns the original value (RFC 4180 section 2 rule 7) |
| Escaping.UnescapeSound | app/api/save/route.js:6-8 | every field that unescapes to a value is exactly the escaping of that value |
| Escaping.EscapeInjective | app/api/save/route.js:6-8 | two different values never produce the same escaped field |
| Escaping.QuotedTailEscapeBody | app/api/save/route.js:7 | a reader of an escaped field stops at the closing quote, whatever commas, line feeds or quotes the value holds |
| Escaping.ParseEscaped | app/api/save/route.js:6-8 | an escaped field followed by a comma, a line feed or the end of input reads back as exactly its value |
| SaveRoute.EscapeAllRoundTrip | app/api/save/route.js:10 | mapping the escaper over the values gives one field per value, and the i-th field unescapes back to the i-th value |
| SaveRoute.Join | app/api/save/route.js:10 | joining gives the empty string for no parts; otherwise its length is the parts' total length plus one separator fewer than there are parts (used for the data line at line 10 and the header at line 16) |
| SaveRoute.JoinAppend | app/api/save/route.js:10 | adding a part after a non-empty list adds exactly one separator and then the part |
| SaveRoute.Row | app/api/save/route.js:10 | the data line ends with a line feed |
| SaveRoute.Header | app/api/save/route.js:16 | the header line ends with a line feed |
| SaveRoute.Compose | app/api/save/route.js:16-27 | with a stored file its text is kept unchanged as a prefix; without one the header is the prefix; in both cases the data line is the suffix, nothing else is added, and the content ends with a line feed |
| SaveRoute.JoinedFieldsParse | app/api/save/route.js:10 | fields that each read back as a value, joined by commas and ended by a line feed, read back as one record of exactly those values, in order |
| SaveRoute.EscapedFieldsParse | app/api/save/route.js:10 | escaped values joined by commas and ended by a line feed read back as one record holding exactly those values, same count and same order |
| SaveRoute.PlainFieldsParse | app/api/save/route.js:16 | keys free of comma, quote and line feed, joined by commas, read back as one record holding exactly those keys |
| SaveRoute.RowParses | app/api/save/route.js:10 | the data line is one record with one field per value, in order (one empty field for an empty object) |
| SaveRoute.HeaderParses | app/api/save/route.js:16 | with keys free of comma, quote and line feed, the header line is one record holding the keys in order |
| SaveRoute.CommaInKeySplitsHeader | app/api/save/route.js:10-16 | keys are written unescaped, so a key holding a comma reads back as two columns above a one-field data line |
| SaveRoute.NewFileParses | app/api/save/route.js:16-27 | for every object with plain keys, including the empty one, a newly created file reads back as two records, the keys and then the values (one empty field each for `{}`), so column names and values align |
| SaveRoute.AppendParses | app/api/save/route.js:17-27 | appending to a readable stored file whose last line is ended keeps all its records and adds exactly one record, the submitted values |
| SaveRoute.UnterminatedStoredGlues | app/api/save/route.js:24-27 | for example, the stored text `x` reads as one record, but once the data line is glued onto its unended last line the file no longer reads |
| SaveRoute.UnterminatedStoredMerges | app/api/save/route.js:24-27 | for every object, a stored text `v,` (plain `v`, no final line feed) reads as one record `v` and an empty field; after the save it reads as one record, `v` followed by the submitted values (one empty field for `{}`), and no record is added; for `{}` or a single empty value that record is the stored one, so the save is invisible |

## Left out

- The blob listing (`list`), the `fetch` of the stored file, its failure `throw`, the upload (`put`), `Response.json` and the `console.log` calls: these are storage and network input and output through a library that is not part of this model. The stored text is a parameter instead.
- The cache-busting URL built with `Date.now()` at line 18 is never used by the fetch, and a clock is input; it is left out.
- The `String(text)` conversion of non-string JSON values (numbers, `null`, nested objects): it depends on JavaScript's runtime rules for turning values into text. Values are strings here.
- The order of `Object.keys` and `Object.values` (integer-like keys first, then insertion order) and JSON's handling of duplicate keys: both come from the JavaScript runtime. The object is given as pairs already in enumeration order.
- Concurrent requests: the route reads the stored file (lines 13-19) and later overwrites it (lines 30-34, `allowOverwrite: true`), with nothing to order two requests. Two saves that read the same stored text each write it back with only their own line, so the later write drops the other's line, and two saves that both find no file both write a fresh header. The model describes one request on its own, so the "keeps all its records" of `AppendParses` holds only for requests that do not overlap.
- Request bodies that are not JSON objects: a body that is not JSON at all makes `req.json()` at line 9 throw, and nothing is written; for the body `null`, `Object.values` at line 10 throws a `TypeError` and nothing is written; other non-object bodies (numbers, strings, arrays) are enumerated by JavaScript's own rules. The `Object` type here is a list of string pairs and cannot express either case.
- `app/logs/page.tsx` (blob listing, per-file fetches, a locale-dependent sort and rendering) and `app/page.tsx` (a form that posts the text): interface and network code with no logic to prove.
- SaveRoute.Row: its own contract only says the line ends with a line feed; its content is stated by SaveRoute.RowParses through the reader.
- SaveRoute.Header: its own contract only says the line ends with a line feed; its content is stated by SaveRoute.HeaderParses, which needs keys free of comma, quote and line feed.

=== FILE: escaping.dfy ===
/**
 The quoting of one CSV field done by `escapeCsvField` in the save route:
 the value is enclosed in double quotes and every double quote inside it is
 doubled, which is rules 5 to 7 of section 2 of RFC 4180.
 */
module Escaping {
  import opened Wrappers
  import opened Rfc4180

  /** Number of double-quote characters in `s`. */
  function QuoteCount(s: string): (n: nat)
    ensures n <= |s|
    ensures n == 0 <==> forall i :: 0 <= i < |s| ==> s[i] != Quote
  {
    if |s| == 0 then 0
    else (if s[0] == Quote then 1 else 0) + QuoteCount(s[1..])
  }

  /** The global replacement of every `"` by `""`; all other characters are kept, in order. */
  function EscapeBody(s: string): (r: string)
    ensures |r| == |s| + QuoteCount(s)
  {
    if |s| == 0 then ""
    else (if s[0] == Quote then [Quote, Quote] else [s[0]]) + EscapeBody(s[1..])
  }

  /** `escapeCsvField`: the value between an opening and a closing quote, inner quotes doubled. */
  function Escape(s: string): (r: string)
    ensures |r| == |s| + QuoteCount(s) + 2
    ensures r[0] == Quote && r[|r| - 1] == Quote
    ensures PairedQuotes(r[1..|r| - 1])
  {
    EscapeBodyPaired(s);
    var r := [Quote] + EscapeBody(s) + [Quote];
    assert r[1..|r| - 1] == EscapeBody(s);
    r
  }

  /**
   Quotes occur only in adjacent pairs: the shape of the text between the
   outer quotes of a well-formed escaped field (RFC 4180 section 2 rule 7).
   */
  predicate PairedQuotes(b: string)
    decreases |b|
  {
    if |b| == 0 then true
    else if b[0] == Quote then |b| >= 2 && b[1] == Quote && PairedQuotes(b[2..])
    else PairedQuotes(b[1..])
  }

  /** Reads each `""` of a paired text back as one `"`. */
  function Collapse(b: string): (s: string)
    requires PairedQuotes(b)
    ensures |b| == |s| + QuoteCount(s)
    decreases |b|
  {
    if |b| == 0 then ""
    else if b[0] == Quote then [Quote] + Collapse(b[2..])
    else [b[0]] + Collapse(b[1..])
  }

  /** Strips the outer quotes of an escaped field and collapses the doubled quotes; `None` for a malformed field. */
  function UnescapeField(f: string): (r: Option<string>)
    ensures r.Some? ==> |f| >= 2 && f[0] == Quote && f[|f| - 1] == Quote
  {
    if |f| >= 2 && f[0] == Quote && f[|f| - 1] == Quote && PairedQuotes(f[1..|f| - 1])
    then Some(Collapse(f[1..|f| - 1]))
    else None
  }

  /** Escaping distributes over concatenation: each character is escaped on its own. */
  lemma {:induction false} EscapeBodyConcat(a: string, b: string)
    ensures EscapeBody(a + b) == EscapeBody(a) + EscapeBody(b)
    decreases |a|
  {
    if |a| == 0 {
      assert a + b == b;
    } else {
      assert (a + b)[0] == a[0];
      assert (a + b)[1..] == a[1..] + b;
      EscapeBodyConcat(a[1..], b);
    }
  }

  /** `s` with its double quotes removed: the characters escaping must copy unchanged. */
  function WithoutQuotes(s: string): (r: string)
    ensures |r| + QuoteCount(s) == |s|
  {
    if |s| == 0 then ""
    else (if s[0] == Quote then "" else [s[0]]) + WithoutQuotes(s[1..])
  }

  /**
   Escaping copies every character other than a quote unchanged and in
   order, and turns each quote into exactly two.
   */
  lemma {:induction false} EscapeBodyKeepsOthers(s: string)
    ensures WithoutQuotes(EscapeBody(s)) == WithoutQuotes(s)
    ensures QuoteCount(EscapeBody(s)) == 2 * QuoteCount(s)
    decreases |s|
  {
    if |s| > 0 {
      EscapeBodyKeepsOthers(s[1..]);
      var r := EscapeBody(s);
      if s[0] == Quote {
        assert r[2..] == EscapeBody(s[1..]);
        assert r[1..][1..] == r[2..];
      } else {
        assert r[1..] == EscapeBody(s[1..]);
      }
    }
  }

  /** Between the outer quotes, quotes come only in pairs. */
  lemma {:induction false} EscapeBodyPaired(s: string)
    ensures PairedQuotes(EscapeBody(s))
    decreases |s|
  {
    if |s| > 0 {
      EscapeBodyPaired(s[1..]);
      var r := EscapeBody(s);
      if s[0] == Quote {
        assert r[2..] == EscapeBody(s[1..]);
      } else {
        assert r[1..] == EscapeBody(s[1..]);
      }
    }
  }

  /** Collapsing undoes escaping. */
  lemma {:induction false} CollapseEscapeBody(s: string)
    ensures PairedQuotes(EscapeBody(s)) && Collapse(EscapeBody(s)) == s
    decreases |s|
  {
    EscapeBodyPaired(s);
    if |s| > 0 {
      CollapseEscapeBody(s[1..]);
      var r := EscapeBody(s);
      if s[0] == Quote {
        assert r[2..] == EscapeBody(s[1..]);
      } else {
        assert r[1..] == EscapeBody(s[1..]);
      }
      assert [s[0]] + s[1..] == s;
    }
  }

  /** Every paired text is the escaping of exactly one value: its collapse. */
  lemma {:induction false} EscapeBodyCollapse(b: string)
    requires PairedQuotes(b)
    ensures EscapeBody(Collapse(b)) == b
    decreases |b|
  {
    if |b| > 0 {
      var s := Collapse(b);
      if b[0] == Quote {
        EscapeBodyCollapse(b[2..]);
        assert s[1..] == Collapse(b[2..]);
        assert b == [Quote, Quote] + b[2..];
      } else {
        EscapeBodyCollapse(b[1..]);
        assert s[1..] == Collapse(b[1..]);
        assert b == [b[0]] + b[1..];
      }
    }
  }

  /** Unescaping an escaped field gives the original value back. */
  lemma EscapeRoundTrip(s: string)
    ensures UnescapeField(Escape(s)) == Some(s)
  {
    var f := Escape(s);
    assert f[1..|f| - 1] == EscapeBody(s);
    CollapseEscapeBody(s);
  }

  /** Every field that unescapes is the escaping of the value it unescapes to. */
  lemma UnescapeSound(f: string)
    requires UnescapeField(f).Some?
    ensures Escape(UnescapeField(f).value) == f
  {
    var b := f[1..|f| - 1];
    EscapeBodyCollapse(b);
    assert f == [Quote] + b + [Quote];
  }

  /** Two different values never escape to the same field. */
  lemma EscapeInjective(a: string, b: string)
    requires Escape(a) == Escape(b)
    ensures a == b
  {
    EscapeRoundTrip(a);
    EscapeRoundTrip(b);
  }

  /**
   The reader finds the end of an escaped body at its closing quote, however
   many commas, line feeds or doubled quotes the value holds.
   */
  lemma {:induction false} QuotedTailEscapeBody(s: string, rest: string)
    requires |rest| == 0 || rest[0] != Quote
    ensures QuotedTail(EscapeBody(s) + [Quote] + rest) == Some((s, rest))
    decreases |s|
  {
    var t := EscapeBody(s) + [Quote] + rest;
    if |s| == 0 {
      assert t == [Quote] + rest;
      assert t[1..] == rest;
    } else {
      var inner := EscapeBody(s[1..]) + [Quote] + rest;
      QuotedTailEscapeBody(s[1..], rest);
      if s[0] == Quote {
        assert t == [Quote, Quote] + inner;
        QuotedTailPair(inner);
        assert [Quote] + s[1..] == s;
      } else {
        assert t == [s[0]] + inner;
        assert t[0] == s[0] && t[1..] == inner;
        assert QuotedTail(t) == Some(([s[0]] + s[1..], rest));
        assert [s[0]] + s[1..] == s;
      }
    }
  }

  /**
   An escaped field, followed by anything that does not start with a quote
   (a comma, a line feed, the end of input), reads back as exactly its value.
   */
  lemma ParseEscaped(s: string, rest: string)
    requires |rest| == 0 || rest[0] != Quote
    ensures ParseField(Escape(s) + rest) == Some((s, rest))
  {
    var t := Escape(s) + rest;
    assert t == [Quote] + (EscapeBody(s) + [Quote] + rest);
    assert t[1..] == EscapeBody(s) + [Quote] + rest;
    QuotedTailEscapeBody(s, rest);
  }
}

=== FILE: rfc4180.dfy ===
/**
 A reference reader for the comma-separated-values format of RFC 4180,
 section 2: records are lines of fields separated by commas; a field is
 either "escaped" (enclosed in double quotes, a quote inside written as two
 quotes) or "non-escaped" (plain text with no comma, quote or line break).

 The data file written by the save route ends each line with a single line
 feed, so this reader ends records with LF where section 2 rule 1 of
 RFC 4180 writes CRLF. As rule 2 allows, the last record of a file may lack
 its line break. A non-escaped field may hold any character except comma,
 quote and line feed, which is wider than the printable-ASCII TEXTDATA of the
 grammar. An escaped field may likewise hold any character between its
 quotes, where the grammar allows only TEXTDATA, comma, CR, LF and doubled
 quotes.
 */
module Rfc4180 {
  import opened Wrappers

  const Quote: char := '"'
  const Comma: char := ','
  const LineFeed: char := '\n'

  /** A character that may appear in a non-escaped field. */
  predicate TextData(c: char) {
    c != Comma && c != Quote && c != LineFeed
  }

  /** A text that is empty or whose last line is ended by a line feed. */
  predicate Terminated(s: string) {
    |s| == 0 || s[|s| - 1] == LineFeed
  }

  /** `t` is what is left of `s` after reading some of it from the front. */
  predicate IsSuffix(t: string, s: string) {
    |t| <= |s| && s[|s| - |t|..] == t
  }

  /** What reading one record yields: its fields, the input after it, and whether a line feed ended it. */
  datatype RecordRead = RecordRead(fields: seq<string>, rest: string, ended: bool)

  /** A string that can stand as a non-escaped field. */
  predicate Plain(s: string) {
    forall i :: 0 <= i < |s| ==> TextData(s[i])
  }

  /**
   Reads an escaped field after its opening quote: characters up to the
   closing quote, each `""` read as one `"`. Yields the field's value and
   the input that follows the closing quote; `None` when the closing quote
   is missing.
   */
  function QuotedTail(s: string): (r: Option<(string, string)>)
    ensures r.Some? ==> |r.value.1| < |s|
    decreases |s|
  {
    if |s| == 0 then None
    else if s[0] == Quote then
      if |s| >= 2 && s[1] == Quote then
        match QuotedTail(s[2..])
        case None => None
        case Some((v, rest)) => Some(([Quote] + v, rest))
      else Some(("", s[1..]))
    else
      match QuotedTail(s[1..])
      case None => None
      case Some((v, rest)) => Some(([s[0]] + v, rest))
  }

  /**
   Reads a non-escaped field: the longest run of text data. A quote inside
   such a field is not allowed by the grammar, so it makes the read fail.
   */
  function UnquotedField(s: string): (r: Option<(string, string)>)
    ensures r.Some? ==> r.value.0 + r.value.1 == s && Plain(r.value.0)
    ensures r.Some? ==> |r.value.1| == 0 || !TextData(r.value.1[0])
  {
    if |s| == 0 || s[0] == Comma || s[0] == LineFeed then Some(("", s))
    else if s[0] == Quote then None
    else
      match UnquotedField(s[1..])
      case None => None
      case Some((v, rest)) => Some(([s[0]] + v, rest))
  }

  /** Reads one field of either kind, yielding its value and what follows it. */
  function ParseField(s: string): (r: Option<(string, string)>)
    ensures r.Some? ==> |r.value.1| <= |s|
  {
    if |s| > 0 && s[0] == Quote then QuotedTail(s[1..]) else UnquotedField(s)
  }

  /**
   Reads one record: fields separated by commas and ended by a line feed or,
   for the last record of a file, by the end of the input. Yields the field
   values, the input after the record and whether a line feed ended it.
   */
  function ParseRecord(s: string): (r: Option<RecordRead>)
    ensures r.Some? ==> |r.value.fields| > 0 && |r.value.rest| <= |s|
    ensures r.Some? && |s| > 0 ==> |r.value.rest| < |s|
    ensures r.Some? && !r.value.ended ==> r.value.rest == ""
    decreases |s|
  {
    match ParseField(s)
    case None => None
    case Some((f, rest)) =>
      if |rest| == 0 then Some(RecordRead([f], "", false))
      else if rest[0] == Comma then
        match ParseRecord(rest[1..])
        case None => None
        case Some(RecordRead(fs, after, ended)) => Some(RecordRead([f] + fs, after, ended))
      else if rest[0] == LineFeed then Some(RecordRead([f], rest[1..], true))
      else None
  }

  /** Reads a whole file as a sequence of records. */
  function ParseRecords(s: string): (r: Option<seq<seq<string>>>)
    ensures s == "" ==> r == Some([])
    ensures r.Some? && |s| > 0 ==> |r.value| > 0
    decreases |s|
  {
    if |s| == 0 then Some([])
    else
      match ParseRecord(s)
      case None => None
      case Some(RecordRead(fields, rest, _)) =>
        match ParseRecords(rest)
        case None => None
        case Some(records) => Some([fields] + records)
  }

  /** A field followed by a line feed is the last field of its record. */
  lemma ParseRecordLineFeed(s: string, f: string, rest: string)
    requires ParseField(s) == Some((f, [LineFeed] + rest))
    ensures ParseRecord(s) == Some(RecordRead([f], rest, true))
  {
    assert ([LineFeed] + rest)[1..] == rest;
  }

  /** A field followed by a comma is followed by the remaining fields of its record. */
  lemma ParseRecordComma(s: string, f: string, tail: string)
    requires ParseField(s) == Some((f, [Comma] + tail)) && ParseRecord(tail).Some?
    ensures ParseRecord(s) == Some(RecordRead([f] + ParseRecord(tail).value.fields,
                                              ParseRecord(tail).value.rest,
                                              ParseRecord(tail).value.ended))
  {
    assert ([Comma] + tail)[1..] == tail;
  }

  /** A text that is exactly one record reads as a file of that one record. */
  lemma SingleRecord(s: string)
    requires |s| > 0 && ParseRecord(s).Some? && ParseRecord(s).value.rest == ""
    ensures ParseRecords(s) == Some([ParseRecord(s).value.fields])
  {
    var fields := ParseRecord(s).value.fields;
    assert ParseRecords("") == Some([]);
    assert [fields] + [] == [fields];
  }

  /** A doubled quote inside an escaped field reads as one quote, and reading goes on after it. */
  lemma QuotedTailPair(inner: string)
    requires QuotedTail(inner).Some?
    ensures QuotedTail([Quote, Quote] + inner)
         == Some(([Quote] + QuotedTail(inner).value.0, QuotedTail(inner).value.1))
  {
    var t := [Quote, Quote] + inner;
    assert t[0] == Quote && t[1] == Quote && t[2..] == inner;
  }

  /** What follows an escaped field is the end of the input it was read from. */
  lemma {:induction false} QuotedTailSuffix(s: string)
    requires QuotedTail(s).Some?
    ensures IsSuffix(QuotedTail(s).value.1, s)
    decreases |s|
  {
    var rest := QuotedTail(s).value.1;
    if s[0] == Quote && |s| >= 2 && s[1] == Quote {
      QuotedTailSuffix(s[2..]);
      assert s[2..][|s[2..]| - |rest|..] == s[|s| - |rest|..];
    } else if s[0] != Quote {
      QuotedTailSuffix(s[1..]);
      assert s[1..][|s[1..]| - |rest|..] == s[|s| - |rest|..];
    }
  }

  /** What follows a field is the end of the input it was read from. */
  lemma ParseFieldSuffix(s: string)
    requires ParseField(s).Some?
    ensures IsSuffix(ParseField(s).value.1, s)
  {
    var rest := ParseField(s).value.1;
    if |s| > 0 && s[0] == Quote {
      QuotedTailSuffix(s[1..]);
      assert s[1..][|s[1..]| - |rest|..] == s[|s| - |rest|..];
    } else {
      assert s == UnquotedField(s).value.0 + rest;
    }
  }

  /** What follows a record is the end of the input it was read from. */
  lemma {:induction false} ParseRecordSuffix(s: string)
    requires ParseRecord(s).Some?
    ensures IsSuffix(ParseRecord(s).value.rest, s)
    decreases |s|
  {
    var (f, rest) := ParseField(s).value;
    var after := ParseRecord(s).value.rest;
    ParseFieldSuffix(s);
    if |rest| > 0 && rest[0] == Comma {
      ParseRecordSuffix(rest[1..]);
      assert s[|s| - |rest|..] == rest;
      assert rest[1..][|rest[1..]| - |after|..] == s[|s| - |after|..];
    } else if |rest| > 0 {
      assert s[|s| - |rest|..] == rest;
      assert rest[1..] == s[|s| - |after|..];
    }
  }

  /** An escaped field that runs to the end of the input ends with its closing quote. */
  lemma {:induction false} QuotedTailLast(s: string)
    ensures QuotedTail(s).Some? && QuotedTail(s).value.1 == "" ==> |s| > 0 && s[|s| - 1] == Quote
    decreases |s|
  {
    if |s| > 0 {
      if s[0] == Quote && |s| >= 2 && s[1] == Quote {
        QuotedTailLast(s[2..]);
      } else if s[0] != Quote {
        QuotedTailLast(s[1..]);
      }
    }
  }

  /**
   A record that runs to the end of the input without a line feed does not
   end with a line feed character either: in a terminated text every record
   is ended by a line feed.
   */
  lemma {:induction false} UnendedRecordLast(s: string)
    requires ParseRecord(s).Some?
    ensures !ParseRecord(s).value.ended ==> !Terminated(s) || |s| == 0
    decreases |s|
  {
    var (f, rest) := ParseField(s).value;
    ParseFieldSuffix(s);
    if |rest| == 0 {
      if |s| > 0 && s[0] == Quote {
        QuotedTailLast(s[1..]);
        assert s[1..][|s[1..]| - 1] == s[|s| - 1];
      } else if |s| > 0 {
        assert s == f + rest;
        assert TextData(f[|f| - 1]);
      }
    } else if rest[0] == Comma {
      var tail := rest[1..];
      UnendedRecordLast(tail);
      if |tail| > 0 {
        assert s[|s| - |rest|..] == rest;
        assert s[|s| - 1] == tail[|tail| - 1];
      } else {
        assert s[|s| - 1] == rest[0];
      }
    }
  }

  /** An escaped field that is followed by more input reads the same whatever comes after that input. */
  lemma {:induction false} QuotedTailExtend(s: string, x: string)
    requires QuotedTail(s).Some? && |QuotedTail(s).value.1| > 0
    ensures QuotedTail(s + x) == Some((QuotedTail(s).value.0, QuotedTail(s).value.1 + x))
    decreases |s|
  {
    assert (s + x)[0] == s[0];
    if s[0] == Quote {
      if |s| >= 2 && s[1] == Quote {
        assert (s + x)[2..] == s[2..] + x;
        QuotedTailExtend(s[2..], x);
      } else {
        assert (s + x)[1] == s[1];
        assert (s + x)[1..] == s[1..] + x;
      }
    } else {
      assert (s + x)[1..] == s[1..] + x;
      QuotedTailExtend(s[1..], x);
    }
  }

  /** A non-escaped field that stops at a delimiter reads the same whatever comes after the input. */
  lemma {:induction false} UnquotedExtend(s: string, x: string)
    requires UnquotedField(s).Some? && |UnquotedField(s).value.1| > 0
    ensures UnquotedField(s + x) == Some((UnquotedField(s).value.0, UnquotedField(s).value.1 + x))
    decreases |s|
  {
    assert (s + x)[0] == s[0];
    if s[0] == Comma || s[0] == LineFeed {
    } else {
      assert (s + x)[1..] == s[1..] + x;
      UnquotedExtend(s[1..], x);
    }
  }

  /** A field followed by more input reads the same whatever is appended. */
  lemma ParseFieldExtend(s: string, x: string)
    requires ParseField(s).Some? && |ParseField(s).value.1| > 0
    ensures ParseField(s + x) == Some((ParseField(s).value.0, ParseField(s).value.1 + x))
  {
    if |s| > 0 && s[0] == Quote {
      assert (s + x)[0] == s[0];
      assert (s + x)[1..] == s[1..] + x;
      QuotedTailExtend(s[1..], x);
    } else {
      UnquotedExtend(s, x);
    }
  }

  /** A record ended by a line feed reads the same whatever follows that line feed. */
  lemma {:induction false} ParseRecordExtend(s: string, x: string)
    requires ParseRecord(s).Some? && ParseRecord(s).value.ended
    ensures ParseRecord(s + x) == Some(RecordRead(ParseRecord(s).value.fields, ParseRecord(s).value.rest + x, true))
    decreases |s|
  {
    var (f, rest) := ParseField(s).value;
    ParseFieldExtend(s, x);
    assert (rest + x)[0] == rest[0];
    assert (rest + x)[1..] == rest[1..] + x;
    if rest[0] == Comma {
      ParseRecordExtend(rest[1..], x);
    }
  }

  /** In a terminated text, the first record is ended by a line feed and what follows it is terminated too. */
  lemma TerminatedRecordRest(t: string)
    requires |t| > 0 && ParseRecord(t).Some? && Terminated(t)
    ensures ParseRecord(t).value.ended && Terminated(ParseRecord(t).value.rest)
  {
    var rest := ParseRecord(t).value.rest;
    UnendedRecordLast(t);
    ParseRecordSuffix(t);
    if |rest| > 0 {
      assert t[|t| - |rest|..] == rest;
      assert rest[|rest| - 1] == t[|t| - 1];
    }
  }

  /** Concatenation of sequences is associative. */
  lemma ConcatAssoc<T>(a: seq<T>, b: seq<T>, c: seq<T>)
    ensures a + (b + c) == (a + b) + c
  {
  }

  /** A non-empty file reads as its first record followed by the records of the rest. */
  lemma ParseRecordsStep(s: string)
    requires |s| > 0 && ParseRecord(s).Some? && ParseRecords(ParseRecord(s).value.rest).Some?
    ensures ParseRecords(s)
         == Some([ParseRecord(s).value.fields] + ParseRecords(ParseRecord(s).value.rest).value)
  {
  }

  /**
   Reading a terminated readable file followed by another readable file gives
   the records of the first, then those of the second.
   */
  lemma {:induction false} ParseRecordsAppend(t: string, u: string)
    requires ParseRecords(t).Some? && ParseRecords(u).Some? && Terminated(t)
    ensures ParseRecords(t + u) == Some(ParseRecords(t).value + ParseRecords(u).value)
    decreases |t|
  {
    if |t| == 0 {
      assert t + u == u;
      assert ParseRecords(t).value + ParseRecords(u).value == ParseRecords(u).value;
    } else {
      var read := ParseRecord(t).value;
      TerminatedRecordRest(t);
      ParseRecordExtend(t, u);
      ParseRecordsAppend(read.rest, u);
      var tail := ParseRecords(read.rest).value;
      var more := ParseRecords(u).value;
      ParseRecordsStep(t);
      assert |t + u| > 0;
      ParseRecordsStep(t + u);
      var first: seq<seq<string>> := [read.fields];
      assert ParseRecords(t) == Some(first + tail);
      assert ParseRecords(t + u) == Some(first + (tail + more));
      ConcatAssoc(first, tail, more);
    }
  }

  /** A plain value at the end of the input reads as a non-escaped field holding exactly that value. */
  lemma {:induction false} UnquotedPlainToEnd(v: string)
    requires Plain(v)
    ensures UnquotedField(v) == Some((v, ""))
    decreases |v|
  {
    if |v| > 0 {
      assert Plain(v[1..]) by {
        forall i | 0 <= i < |v[1..]| ensures TextData(v[1..][i]) {
          assert v[1..][i] == v[i + 1];
        }
      }
      UnquotedPlainToEnd(v[1..]);
      assert [v[0]] + v[1..] == v;
    }
  }

  /** A plain field, a comma and then one whole ended record read as a single record that starts with that field. */
  lemma PlainThenRecord(v: string, t: string)
    requires Plain(v) && ParseRecord(t).Some? && ParseRecord(t).value.rest == ""
    ensures ParseRecords(v + [Comma] + t) == Some([[v] + ParseRecord(t).value.fields])
  {
    var s := v + [Comma] + t;
    assert s == v + ([Comma] + t);
    UnquotedPlain(v, [Comma] + t);
    ParseRecordComma(s, v, t);
    SingleRecord(s);
  }

  /** A plain value followed by a delimiter reads as a non-escaped field holding exactly that value. */
  lemma {:induction false} UnquotedPlain(v: string, rest: string)
    requires Plain(v)
    requires |rest| > 0 && (rest[0] == Comma || rest[0] == LineFeed)
    ensures ParseField(v + rest) == Some((v, rest))
    decreases |v|
  {
    if |v| == 0 {
      assert v + rest == rest;
    } else {
      assert (v + rest)[0] == v[0];
      assert (v + rest)[1..] == v[1..] + rest;
      assert Plain(v[1..]) by {
        forall i | 0 <= i < |v[1..]| ensures TextData(v[1..][i]) {
          assert v[1..][i] == v[i + 1];
        }
      }
      UnquotedPlain(v[1..], rest);
      assert [v[0]] + v[1..] == v;
    }
  }
}

=== FILE: save_route.dfy ===
/**
 The CSV record writer of the save route: the submitted object becomes one
 data line of escaped values; the data file gets a header line of the
 object's keys when it does not exist yet, and otherwise the line is
 appended to the text already stored.

 The blob listing, the fetch of the stored text and the final upload are
 input and output; here the stored text is a parameter, `None` when the
 blob listing does not contain the data file.
 */
module SaveRoute {
  import opened Wrappers
  import opened Rfc4180
  import opened Escaping

  /** A submitted JSON object: its properties as (key, value) pairs, in enumeration order. */
  type Object = seq<(string, string)>

  /** `Object.keys`: the property names, in order. */
  function Keys(obj: Object): (ks: seq<string>)
    ensures |ks| == |obj| && forall i :: 0 <= i < |obj| ==> ks[i] == obj[i].0
  {
    seq(|obj|, i requires 0 <= i < |obj| => obj[i].0)
  }

  /** `Object.values`: the property values, in the same order as the keys. */
  function Values(obj: Object): (vs: seq<string>)
    ensures |vs| == |obj| && forall i :: 0 <= i < |obj| ==> vs[i] == obj[i].1
  {
    seq(|obj|, i requires 0 <= i < |obj| => obj[i].1)
  }

  /** `map(escapeCsvField)`: each value escaped, in order. */
  function EscapeAll(vs: seq<string>): (fs: seq<string>)
    ensures |fs| == |vs| && forall i :: 0 <= i < |vs| ==> fs[i] == Escape(vs[i])
  {
    seq(|vs|, i requires 0 <= i < |vs| => Escape(vs[i]))
  }

  /** The mapped fields are one per value, and each unescapes back to the value at its position. */
  lemma EscapeAllRoundTrip(vs: seq<string>)
    ensures |EscapeAll(vs)| == |vs|
    ensures forall i :: 0 <= i < |vs| ==> UnescapeField(EscapeAll(vs)[i]) == Some(vs[i])
  {
    var fs := EscapeAll(vs);
    forall i | 0 <= i < |vs| ensures UnescapeField(fs[i]) == Some(vs[i]) {
      EscapeRoundTrip(vs[i]);
    }
  }

  /** Sum of the lengths of `parts`. */
  function TotalLength(parts: seq<string>): nat
  {
    if |parts| == 0 then 0 else |parts[0]| + TotalLength(parts[1..])
  }

  /**
   `Array.prototype.join`: the parts with `sep` between neighbours; empty for
   no parts, so the result holds every part and one separator fewer than parts.
   */
  function Join(parts: seq<string>, sep: string): (r: string)
    ensures |parts| == 0 ==> r == ""
    ensures |parts| > 0 ==> |r| == TotalLength(parts) + (|parts| - 1) * |sep|
  {
    if |parts| == 0 then ""
    else if |parts| == 1 then parts[0]
    else parts[0] + sep + Join(parts[1..], sep)
  }

  /** The data line: escaped values joined by commas, ended by one line feed. */
  function Row(obj: Object): (line: string)
    ensures |line| > 0 && line[|line| - 1] == LineFeed
  {
    Join(EscapeAll(Values(obj)), [Comma]) + [LineFeed]
  }

  /** The header line: keys joined by commas, not escaped, ended by one line feed. */
  function Header(obj: Object): (line: string)
    ensures |line| > 0 && line[|line| - 1] == LineFeed
  {
    Join(Keys(obj), [Comma]) + [LineFeed]
  }

  /** The fields a reader gets back from a data line with values `vs`: an empty line is one empty field. */
  function ReadBack(vs: seq<string>): (fields: seq<string>)
    ensures |fields| > 0
    ensures |vs| > 0 ==> fields == vs
  {
    if |vs| == 0 then [""] else vs
  }

  /**
   The new content of the data file: the header then the data line when no
   file exists, otherwise the stored text then the data line. The stored
   text is kept unchanged as a prefix, and the data line is always the
   suffix.
   */
  function Compose(obj: Object, existing: Option<string>): (content: string)
    ensures existing.Some? ==> |content| == |existing.value| + |Row(obj)|
    ensures existing.Some? ==> content[..|existing.value|] == existing.value
    ensures existing.None? ==> |content| == |Header(obj)| + |Row(obj)|
    ensures existing.None? ==> content[..|Header(obj)|] == Header(obj)
    ensures |content| >= |Row(obj)| && content[|content| - |Row(obj)|..] == Row(obj)
    ensures Terminated(content)
  {
    var start := if existing.Some? then existing.value else Header(obj);
    start + Row(obj)
  }

  /** Regrouping of a four-part concatenation. */
  lemma SplitAt(a: string, b: string, c: string, d: string)
    ensures a + b + c + d == a + (b + (c + d))
  {
  }

  /** Adding a part at the end of a non-empty join adds one separator and the part. */
  lemma {:induction false} JoinAppend(parts: seq<string>, p: string, sep: string)
    requires |parts| > 0
    ensures Join(parts + [p], sep) == Join(parts, sep) + sep + p
    decreases |parts|
  {
    var ps := parts + [p];
    if |parts| == 1 {
      assert ps[1..] == [p];
    } else {
      assert ps[1..] == parts[1..] + [p];
      JoinAppend(parts[1..], p, sep);
    }
  }

  /** `fs` reads back as `vs` field by field, whenever a comma or a line feed follows. */
  ghost predicate ReadsAs(fs: seq<string>, vs: seq<string>) {
    && |fs| == |vs|
    && forall i, d :: 0 <= i < |fs| && |d| > 0 && (d[0] == Comma || d[0] == LineFeed)
         ==> ParseField(fs[i] + d) == Some((vs[i], d))
  }

  /** One instance of the field-by-field reading. */
  lemma ReadsAsAt(fs: seq<string>, vs: seq<string>, i: int, d: string)
    requires ReadsAs(fs, vs) && 0 <= i < |fs| && |d| > 0 && (d[0] == Comma || d[0] == LineFeed)
    ensures ParseField(fs[i] + d) == Some((vs[i], d))
  {
  }

  /** Dropping the first field and the first value keeps the field-by-field reading. */
  lemma ReadsAsTail(fs: seq<string>, vs: seq<string>)
    requires |fs| > 0 && ReadsAs(fs, vs)
    ensures ReadsAs(fs[1..], vs[1..])
  {
    forall i, d | 0 <= i < |fs[1..]| && |d| > 0 && (d[0] == Comma || d[0] == LineFeed)
      ensures ParseField(fs[1..][i] + d) == Some((vs[1..][i], d))
    {
      assert fs[1..][i] == fs[i + 1] && vs[1..][i] == vs[i + 1];
    }
  }

  /**
   Fields that each read back as a value, joined by commas and ended by a line
   feed, read back as one record of exactly those values, in order.
   */
  lemma {:induction false} JoinedFieldsParse(fs: seq<string>, vs: seq<string>, rest: string)
    requires |fs| > 0 && ReadsAs(fs, vs)
    ensures ParseRecord(Join(fs, [Comma]) + [LineFeed] + rest) == Some(RecordRead(vs, rest, true))
    decreases |fs|
  {
    var s := Join(fs, [Comma]) + [LineFeed] + rest;
    if |fs| == 1 {
      assert s == fs[0] + ([LineFeed] + rest);
      ReadsAsAt(fs, vs, 0, [LineFeed] + rest);
      ParseRecordLineFeed(s, vs[0], rest);
      assert [vs[0]] == vs;
    } else {
      var j := Join(fs[1..], [Comma]);
      var tail := j + [LineFeed] + rest;
      assert Join(fs, [Comma]) == fs[0] + [Comma] + j;
      SplitAt(fs[0], [Comma], j, [LineFeed] + rest);
      assert s == fs[0] + ([Comma] + tail);
      ReadsAsAt(fs, vs, 0, [Comma] + tail);
      ReadsAsTail(fs, vs);
      JoinedFieldsParse(fs[1..], vs[1..], rest);
      ParseRecordComma(s, vs[0], tail);
      assert [vs[0]] + vs[1..] == vs;
    }
  }

  /**
   Escaped values joined by commas and ended by a line feed read back as
   exactly those values, one field per value, in order.
   */
  lemma EscapedFieldsParse(vs: seq<string>, rest: string)
    requires |vs| > 0
    ensures ParseRecord(Join(EscapeAll(vs), [Comma]) + [LineFeed] + rest) == Some(RecordRead(vs, rest, true))
  {
    var fs := EscapeAll(vs);
    forall i, d | 0 <= i < |fs| && |d| > 0 && (d[0] == Comma || d[0] == LineFeed)
      ensures ParseField(fs[i] + d) == Some((vs[i], d))
    {
      ParseEscaped(vs[i], d);
    }
    JoinedFieldsParse(fs, vs, rest);
  }

  /** Plain keys joined by commas and ended by a line feed read back as exactly those keys. */
  lemma PlainFieldsParse(ks: seq<string>, rest: string)
    requires |ks| > 0 && forall i :: 0 <= i < |ks| ==> Plain(ks[i])
    ensures ParseRecord(Join(ks, [Comma]) + [LineFeed] + rest) == Some(RecordRead(ks, rest, true))
  {
    forall i, d | 0 <= i < |ks| && |d| > 0 && (d[0] == Comma || d[0] == LineFeed)
      ensures ParseField(ks[i] + d) == Some((ks[i], d))
    {
      UnquotedPlain(ks[i], d);
    }
    JoinedFieldsParse(ks, ks, rest);
  }

  /** The data line is one record whose fields are the object's values, same count, same order. */
  lemma RowParses(obj: Object)
    ensures ParseRecords(Row(obj)) == Some([ReadBack(Values(obj))])
  {
    var vs := Values(obj);
    if |vs| == 0 {
      assert Row(obj) == [LineFeed];
      assert ParseField(Row(obj)) == Some(("", Row(obj)));
      assert Row(obj)[1..] == "";
      assert ParseRecord(Row(obj)) == Some(RecordRead([""], "", true));
      SingleRecord(Row(obj));
    } else {
      EscapedFieldsParse(vs, "");
      assert Row(obj) + "" == Row(obj);
      assert ParseRecord(Row(obj)) == Some(RecordRead(vs, "", true));
      SingleRecord(Row(obj));
    }
  }

  /** With plain keys, the header line is one record whose fields are the object's keys. */
  lemma HeaderParses(obj: Object)
    requires forall i :: 0 <= i < |obj| ==> Plain(obj[i].0)
    ensures ParseRecords(Header(obj)) == Some([ReadBack(Keys(obj))])
  {
    var ks := Keys(obj);
    if |ks| == 0 {
      assert Header(obj) == [LineFeed];
      assert ParseField(Header(obj)) == Some(("", Header(obj)));
      assert Header(obj)[1..] == "";
      assert ParseRecord(Header(obj)) == Some(RecordRead([""], "", true));
      SingleRecord(Header(obj));
    } else {
      PlainFieldsParse(ks, "");
      assert Header(obj) + "" == Header(obj);
      assert ParseRecord(Header(obj)) == Some(RecordRead(ks, "", true));
      SingleRecord(Header(obj));
    }
  }

  /**
   A key holding a comma is written unescaped, so the header reads back with
   more columns than the data line below it.
   */
  lemma CommaInKeySplitsHeader()
    ensures var obj := [("a,b", "1")];
      ParseRecords(Header(obj)) == Some([["a", "b"]])
      && ParseRecords(Row(obj)) == Some([["1"]])
  {
    var obj := [("a,b", "1")];
    var ks := ["a", "b"];
    assert Keys(obj) == ["a,b"];
    assert Join(ks, [Comma]) == "a,b" by {
      assert Join(ks[1..], [Comma]) == "b";
    }
    assert Header(obj) == Join(ks, [Comma]) + [LineFeed] + "";
    assert Plain(ks[0]) && Plain(ks[1]);
    PlainFieldsParse(ks, "");
    SingleRecord(Header(obj));
    RowParses(obj);
    assert Values(obj) == ["1"];
  }

  /**
   A new file read back holds two records, the keys then the values, so the
   i-th column name belongs to the i-th value.
   */
  lemma NewFileParses(obj: Object)
    requires forall i :: 0 <= i < |obj| ==> Plain(obj[i].0)
    ensures ParseRecords(Compose(obj, None)) == Some([ReadBack(Keys(obj)), ReadBack(Values(obj))])
  {
    HeaderParses(obj);
    RowParses(obj);
    ParseRecordsAppend(Header(obj), Row(obj));
    assert Compose(obj, None) == Header(obj) + Row(obj);
    assert [ReadBack(Keys(obj))] + [ReadBack(Values(obj))] == [ReadBack(Keys(obj)), ReadBack(Values(obj))];
  }

  /**
   Appending to a readable stored file whose last line is ended keeps every
   record already there and adds exactly one record: the submitted values.
   Every content this route writes is terminated (see `Compose`), so a file
   only this route has written always meets the `Terminated` requirement.
   */
  lemma AppendParses(obj: Object, stored: string)
    requires ParseRecords(stored).Some? && Terminated(stored)
    ensures ParseRecords(Compose(obj, Some(stored)))
         == Some(ParseRecords(stored).value + [ReadBack(Values(obj))])
  {
    RowParses(obj);
    ParseRecordsAppend(stored, Row(obj));
  }

  /**
   A stored file whose last line lacks its line feed gets the data line glued
   onto that last line. For example, for the stored text `x` the quote that
   opens the first value then sits inside a non-escaped field, and the whole
   file no longer reads.
   */
  lemma UnterminatedStoredGlues()
    ensures var obj := [("k", "1")];
      ParseRecords("x") == Some([["x"]])
      && ParseRecords(Compose(obj, Some("x"))) == None
  {
    var obj := [("k", "1")];
    assert Plain("x");
    UnquotedPlainToEnd("x");
    assert ParseRecord("x") == Some(RecordRead(["x"], "", false));
    SingleRecord("x");
    var content := Compose(obj, Some("x"));
    assert Values(obj) == ["1"];
    assert Join(EscapeAll(["1"]), [Comma]) == Escape("1");
    assert content[0] == 'x' && content[1] == Quote;
    assert UnquotedField(content[1..]) == None;
    assert UnquotedField(content) == None;
  }

  /** A plain value followed by a comma at the end of the input is one record whose last field is empty. */
  lemma TrailingCommaReads(v: string)
    requires Plain(v)
    ensures ParseRecords(v + [Comma]) == Some([[v, ""]])
  {
    var stored := v + [Comma];
    UnquotedPlain(v, [Comma]);
    assert [Comma] == [Comma] + "";
    assert ParseField("") == Some(("", ""));
    assert ParseRecord("") == Some(RecordRead([""], "", false));
    ParseRecordComma(stored, v, "");
    assert [v] + [""] == [v, ""];
    SingleRecord(stored);
  }

  /**
   For some other unterminated stored texts, such as `v,`, the glued file
   still reads, but no record is added: the data line's values take the place
   of the stored empty last field. For `{}` or a single empty value the
   merged record is the stored one again, so the save leaves no trace.
   */
  lemma UnterminatedStoredMerges(v: string, obj: Object)
    requires Plain(v)
    ensures ParseRecords(v + [Comma]) == Some([[v, ""]])
    ensures ParseRecords(Compose(obj, Some(v + [Comma]))) == Some([[v] + ReadBack(Values(obj))])
    ensures ReadBack(Values(obj)) == [""] ==>
      ParseRecords(Compose(obj, Some(v + [Comma]))) == ParseRecords(v + [Comma])
  {
    TrailingCommaReads(v);
    var row := Row(obj);
    if |Values(obj)| == 0 {
      assert row == [LineFeed];
      assert ParseField(row) == Some(("", row));
      assert row[1..] == "";
      assert ParseRecord(row) == Some(RecordRead([""], "", true));
    } else {
      EscapedFieldsParse(Values(obj), "");
      assert row + "" == row;
    }
    PlainThenRecord(v, row);
    assert Compose(obj, Some(v + [Comma])) == v + [Comma] + row;
    assert [v] + [""] == [v, ""];
  }
}

=== FILE: wrappers.dfy ===
/** The optional value used where the save route may or may not find something. */
module Wrappers {

  /** `None` when there is nothing, `Some(value)` otherwise. */
  datatype Option<+T> = None | Some(value: T)
}
